=== FILE: README.md ===
# AVL tree set, modelled in Dafny

`AVLTree` is a `java.util.Set` of comparable values kept in an AVL tree. Each
node stores a value, two child links and a balance factor: the height of the
right subtree minus the height of the left one. The class keeps three things:
- the root link;
- a `size` counter;
- two flags, `endAdding` and `endRemoving`. The recursive insertion and removal
  set them to stop adjusting balance factors on the way back up.

`add` and `remove` first test membership. They then walk down to the value and
adjust factors on the way back. A node whose factor reaches -2 or 2 is repaired
by `balance`, which chooses one of four rotations. The class also provides:
- a stack-based in-order iterator;
- `toArray`;
- the bulk set operations `containsAll`, `addAll`, `retainAll`, `removeAll`
  and `clear`;
- structural `equals`.

The model uses integer elements. There are four modules:

- `TreeModel` (`tree_model.dfy`): the node datatype `Tree`, where `Leaf` is a
  null link, and the views of a tree. These are its height `H`, its value set
  `Elems`, its in-order sequence `InOrder`, its node count `Count`, search order
  `Bst` and the AVL invariant `BalOk`. The invariant says every stored factor is
  the true height difference and lies in -1..1. The module also proves the
  general facts:
  - search order holds exactly when the in-order sequence is strictly ascending;
  - the counter is the number of distinct values;
  - the AVL height bound.
- `Rotations` (`rotations.dfy`): the four rotations and `balance`, as functions
  on subtree values. Every rotation keeps the in-order sequence. On a node that
  is two levels out of balance over AVL subtrees, the case table of factors
  yields an AVL tree, with the height change the walks rely on.
- `Recursion` (`recursion.dfy`): `find`, `findMin`, `addRecursive` and
  `removeRecursive` as pure functions. Each walk returns the new subtree and the
  value its flag has afterwards. The insertion walk and the corrected removal walk
  keep search order, the value set and the AVL invariant; the removal as written
  keeps search order, the value set and the node count wherever it completes.
- `AvlSet` (`avl_tree.dfy`): the two classes.
  - `AVLTreeIterator` keeps its stack as a `seq<Tree>` whose top is the last
    element.
  - `AVLTree` has the Java fields. Its recursive methods update the flag fields
    and are proved equal to the pure walks. The public operations state their
    effect on the value set and preserve the class invariant `Valid()`. That
    invariant is an AVL search tree whose counter equals its node count.

The removal walk as written mishandles a node with two children (see
"## Findings"). The class runs the corrected walk. The walk as written is
modelled beside it, with a counterexample.

## Model

| member | source | states |
|---|---|---|
| TreeModel.InOrderCount | src/main/java/project/AVLTree.java:117-125 | the in-order sequence has one entry per node, so an iteration of `size` steps visits every node of a tree whose counter is its node count |
| TreeModel.InOrderElems | src/main/java/project/AVLTree.java:85-115 | the in-order sequence the iterator follows holds exactly the values of the tree |
| TreeModel.BstIffAscending | src/main/java/project/AVLTree.java:85-115 | a tree is search-ordered if and only if its in-order sequence, which the iterator yields, is strictly ascending |
| TreeModel.BstCount | src/main/java/project/AVLTree.java:62-65 | in a search tree no value is stored twice: the number of distinct values equals the number of nodes |
| TreeModel.AvlMinCount | src/main/java/project/AVLTree.java:142-149 | an AVL tree of height h has at least the minimal node count of that height |
| TreeModel.AvlHeightBound | src/main/java/project/AVLTree.java:142-149 | on an AVL tree, 2^(height/2) <= nodes + 1, so the height is logarithmic in the number of values |
| Rotations.SmallLeftTurn | src/main/java/project/AVLTree.java:358-372 | the single left rotation keeps the in-order sequence, puts the right child at the top and the old root as its left child |
| Rotations.SmallRightTurn | src/main/java/project/AVLTree.java:374-388 | the single right rotation keeps the in-order sequence, puts the left child at the top and the old root as its right child |
| Rotations.BigLeftTurn | src/main/java/project/AVLTree.java:390-412 | the right-left double rotation keeps the in-order sequence and lifts the left grandchild of the right child, with the old root on its left and the old right child on its right |
| Rotations.BigRightTurn | src/main/java/project/AVLTree.java:414-436 | the left-right double rotation keeps the in-order sequence and lifts the right grandchild of the left child, with the old left child on its left and the old root on its right |
| Rotations.CanBalance | src/main/java/project/AVLTree.java:336-436 | the links `balance` and the rotations follow exist; every node whose factor is its true height difference over AVL subtrees has them (BalanceRestores uses this) |
| Rotations.Balance | src/main/java/project/AVLTree.java:336-351 | balance keeps the in-order sequence and returns a node whose factor is in range unchanged |
| Rotations.BalanceKeepsOrder | src/main/java/project/AVLTree.java:336-351 | balance keeps the value set, and it keeps search order in both directions |
| Rotations.SmallLeftTurnRebalances | src/main/java/project/AVLTree.java:364-370 | the factor table of the single left rotation is right: the result is AVL; from factor 1 both factors become 0 and the height drops; from 0 they become -1 and 1 and the height is kept |
| Rotations.SmallRightTurnRebalances | src/main/java/project/AVLTree.java:380-386 | mirror image: from -1 both factors become 0 and the height drops; from 0 they become 1 and -1 and the height is kept |
| Rotations.BigLeftTurnRebalances | src/main/java/project/AVLTree.java:399-410 | the table of the right-left rotation is right: the result is AVL, one level lower, with root factor 0, and the pivot's factor 0, -1 or 1 gives the children 0/0, 0/1 or -1/0 |
| Rotations.BigRightTurnRebalances | src/main/java/project/AVLTree.java:423-434 | mirror image of the right-left table: pivot factor 0, 1 or -1 gives 0/0, -1/0 or 0/1 |
| Rotations.BalanceRestores | src/main/java/project/AVLTree.java:336-351 | a node at most two levels out of balance over AVL subtrees can be balanced; the result is AVL; a rotation lowers the height exactly when the new root factor is 0 |
| Recursion.FindFrom | src/main/java/project/AVLTree.java:46-59 | find stops at a node of the tree that holds x, or whose child towards x is missing; on a search tree it holds x exactly when x is stored, and otherwise holds the closest stored value below or above x (no stored value lies strictly between) |
| Recursion.FindMin | src/main/java/project/AVLTree.java:276-278 | findMin returns a node without a left child whose value is stored and, on a search tree, is the least value |
| Recursion.Ins | src/main/java/project/AVLTree.java:177-203 | addRecursive on an AVL tree without x returns an AVL tree whose height grew by one exactly when endAdding ends false |
| Recursion.AfterGrowth | src/main/java/project/AVLTree.java:184-198 | the unwinding step of addRecursive keeps the in-order sequence and leaves a node whose factor is not ±2 unchanged; AfterLeftGrowthRebalances and AfterRightGrowthRebalances state its AVL and stop-flag guarantees |
| Recursion.AfterLeftGrowthRebalances | src/main/java/project/AVLTree.java:182-190 | after the left subtree grew, decrementing the factor and balancing at magnitude 2 gives an AVL tree, and the walk stops exactly when the height is unchanged |
| Recursion.AfterRightGrowthRebalances | src/main/java/project/AVLTree.java:191-199 | mirror image for growth on the right |
| Recursion.InsKeepsOrder | src/main/java/project/AVLTree.java:177-203 | addRecursive adds exactly x to the values and keeps search order |
| Recursion.InsValid | src/main/java/project/AVLTree.java:167-175 | insertion into an AVL search tree without x gives an AVL search tree with the values plus x and one node more |
| Recursion.CanBalanceAfterRemoval | src/main/java/project/AVLTree.java:237-252 | on an AVL node, `balance` after a removal from either side follows no missing link |
| Recursion.AfterLeftRemoval | src/main/java/project/AVLTree.java:239-243 | the unwinding step after a removal on the left keeps the in-order sequence of the node with its new left child; AfterLeftRemovalRebalances states its AVL and flag guarantees |
| Recursion.AfterRightRemoval | src/main/java/project/AVLTree.java:247-251 | mirror image for the right side; AfterRightRemovalRebalances states its AVL and flag guarantees |
| Recursion.AfterLeftRemovalRebalances | src/main/java/project/AVLTree.java:237-244 | after the left subtree shrank, incrementing the factor and calling balance gives an AVL tree, and endRemoving becomes true exactly when the height is unchanged |
| Recursion.AfterRightRemovalRebalances | src/main/java/project/AVLTree.java:245-252 | mirror image for removal on the right |
| Recursion.AfterGrowthKeepsOrder | src/main/java/project/AVLTree.java:184-198 | the unwinding step of addRecursive keeps the value set, and it keeps search order in both directions |
| Recursion.AfterLeftRemovalKeepsOrder | src/main/java/project/AVLTree.java:237-244 | the unwinding step after a left removal keeps the values and search order of the node with its new child |
| Recursion.AfterRightRemovalKeepsOrder | src/main/java/project/AVLTree.java:245-252 | mirror image for the right side |
| Recursion.Del | src/main/java/project/AVLTree.java:232-272 | removeRecursive, with the two-children case corrected, on an AVL search tree holding x returns an AVL tree whose height dropped by one exactly when endRemoving ends false |
| Recursion.DelKeepsOrder | src/main/java/project/AVLTree.java:232-272 | the corrected removal takes exactly x out of the values and keeps search order |
| Recursion.DelValid | src/main/java/project/AVLTree.java:219-230 | removal from an AVL search tree holding x gives an AVL search tree without x and with one node fewer |
| Recursion.DelAsWritten | src/main/java/project/AVLTree.java:232-272 | removeRecursive exactly as written, on any search tree holding x, with `None` for the null dereference in `balance`; on an AVL tree it never dereferences null |
| Recursion.DelAsWrittenKeepsOrder | src/main/java/project/AVLTree.java:232-272 | on any search tree holding x, wherever the removal as written completes it takes exactly x out of the values and keeps search order |
| Recursion.DelAsWrittenValid | src/main/java/project/AVLTree.java:219-230 | wherever the removal as written completes, the result is a search tree without x and with one node fewer, so `size--` stays right |
| Recursion.SampleValid | src/main/java/project/AVLTree.java:167-203 | the tree that inserting 5, 2, 7, 1, 3 builds (any a < b < c < d < e) is an AVL search tree holding those five values |
| Recursion.SampleFromInsertions | src/main/java/project/AVLTree.java:177-203 | inserting d, b, e, a, c one at a time builds that tree; the third and fifth insertions stop the walk and no rotation happens |
| Recursion.RemoveAsWrittenUnbalances | src/main/java/project/AVLTree.java:264-268 | removing b (two children) from that tree as written leaves a root with factor 0 over subtrees of heights 2 and 1: not AVL |
| Recursion.RemoveAsWrittenAgain | src/main/java/project/AVLTree.java:245-252 | removing e from that unbalanced tree as written completes and leaves stored root factor -1 over subtrees of heights 2 and 0 |
| Recursion.RemoveCorrectedBalances | src/main/java/project/AVLTree.java:232-272 | the corrected walk on the same input gives the AVL tree with root factor -1 and stops the walk |
| Recursion.InsertionOrderShapesTree | src/main/java/project/AVLTree.java:21-30 | inserting a then b and b then a give the same value set but structurally different trees, so node equality is stricter than set equality |
| AvlSet.AVLTreeIterator.constructor | src/main/java/project/AVLTree.java:90-92 | a new iterator over a root still has to yield the whole in-order sequence of that root |
| AvlSet.AVLTreeIterator.PushToLeft | src/main/java/project/AVLTree.java:94-99 | pushing a node and its left chain puts that node's in-order sequence in front of what was pending |
| AvlSet.AVLTreeIterator.HasNext | src/main/java/project/AVLTree.java:101-104 | there is a next value exactly when some value is still pending |
| AvlSet.AVLTreeIterator.Next | src/main/java/project/AVLTree.java:106-114 | next returns the first pending value and leaves the rest pending; prev takes the old current, and current is the node returned |
| AvlSet.AVLTree.constructor | src/main/java/project/AVLTree.java:38-39 | a new set is empty and valid |
| AvlSet.AVLTree.Size | src/main/java/project/AVLTree.java:62-65 | on a valid tree the counter is the number of stored values and the length of the in-order sequence |
| AvlSet.AVLTree.IsEmpty | src/main/java/project/AVLTree.java:67-70 | empty exactly when the root is null, exactly when no value is stored, and on a valid tree exactly when the counter is 0 |
| AvlSet.AVLTree.Find | src/main/java/project/AVLTree.java:41-44 | no node exactly for an empty tree; otherwise a stored node holding x or where the search for x ends; on a search tree it holds x exactly when x is stored, and otherwise the closest stored value below or above x |
| AvlSet.AVLTree.Contains | src/main/java/project/AVLTree.java:72-78 | on a search tree, contains is membership in the value set |
| AvlSet.AVLTree.Height | src/main/java/project/AVLTree.java:142-149 | the height of the root; on a valid tree 2^(height/2) <= size + 1 |
| AvlSet.AVLTree.AddRecursive | src/main/java/project/AVLTree.java:177-203 | the in-place walk with the flag as a field yields the subtree and final endAdding of Ins |
| AvlSet.AVLTree.Add | src/main/java/project/AVLTree.java:167-175 | add returns true exactly when x was absent; the values become old values plus x; the counter grows by one only then; the tree stays valid; the height grows by at most one, and after an insertion by one exactly when endAdding is false; the tree and endAdding are unchanged when x was present |
| AvlSet.AVLTree.RemoveRecursive | src/main/java/project/AVLTree.java:232-272 | the in-place walk with the flag as a field yields the subtree and final endRemoving of the corrected Del |
| AvlSet.AVLTree.Remove | src/main/java/project/AVLTree.java:219-230 | remove returns true exactly when x was present; the values lose exactly x; the counter drops by one only then; the tree stays valid; the height never grows, and after a removal it drops by one exactly when endRemoving is false; the tree and endRemoving are unchanged when x was absent |
| AvlSet.AVLTree.Iterator | src/main/java/project/AVLTree.java:80-83 | a fresh iterator that will yield the in-order sequence of the root |
| AvlSet.AVLTree.FillInOrder | src/main/java/project/AVLTree.java:133-136 | the iterator loop writes the in-order sequence into the first size slots and leaves the others alone |
| AvlSet.AVLTree.ToArray | src/main/java/project/AVLTree.java:117-125 | a fresh array of length size holding the in-order sequence, which is ascending by BstIffAscending |
| AvlSet.AVLTree.ToArrayInto | src/main/java/project/AVLTree.java:127-140 | a too-short array is left alone and a fresh copy is returned; otherwise the first size slots receive the values in order, the rest is untouched, and the same array is returned |
| AvlSet.AVLTree.ContainsAll | src/main/java/project/AVLTree.java:280-289 | true exactly when contains holds for every element of c; on a search tree, exactly when c's values are a subset of the stored ones |
| AvlSet.AVLTree.AddAll | src/main/java/project/AVLTree.java:291-300 | false with no change when c is already contained; otherwise true, the values become old values plus c's, and the tree stays valid |
| AvlSet.AVLTree.RetainAll | src/main/java/project/AVLTree.java:302-312 | false with no change when every stored value is in c; otherwise true and the values become their intersection with c, in a valid tree |
| AvlSet.RetainedValues | src/main/java/project/AVLTree.java:305-310 | removing each value of the copied list that is not in c, and nothing of c, leaves exactly the values in c |
| AvlSet.AVLTree.RemoveAll | src/main/java/project/AVLTree.java:314-323 | false with no change unless every element of c is present; otherwise true and the values lose exactly c's, in a valid tree |
| AvlSet.AVLTree.Clear | src/main/java/project/AVLTree.java:325-329 | the tree becomes the valid empty set |
| AvlSet.AVLTree.Equals | src/main/java/project/AVLTree.java:450-457 | a tree equals itself and never null; equal trees have the same counter, the same in-order sequence and the same values |

## Left out

- Generic elements and `compareTo`: elements are `int`, compared with `<`, and
  structural equality of nodes uses the same `int` equality. This covers element
  types whose `compareTo` is consistent with `equals`. A type whose `compareTo`
  disagrees with `equals` is not covered: the walks and `contains` compare with
  `compareTo`, while `Node.equals` compares values with `equals`.
- Object identity of nodes: the walks rewire links in place. Each node has
  exactly one parent, so the model replaces a node by the value of the subtree it
  heads. The rotations are functions on those values. Aliasing between nodes is
  not modelled.
- `hashCode` and `Node.hashCode`: hashing of values is out of scope. `toString`:
  string formatting is out of scope.
- The `int` width of `size`: the counter is unbounded, so overflow past 2^31 - 1
  values is not modelled.
- Unchecked casts and `null`: `contains(Object)` and `remove(Object)` with a
  value of another type, and `toArray(null)`, throw in Java. They are not
  modelled. The arrays hold `int`, so the covariance of `toArray(T1[])` does not
  arise.
- AVLTreeIterator.Next: it requires a pending value, where Java throws
  `NoSuchElementException` on an exhausted iterator.
- `Valid()` is a precondition of the public operations, and the model's
  operations keep it because they use the corrected removal. Java has no such
  check, and its removal as written does not keep the AVL invariant (see
  "## Findings"). The walk as written, Recursion.DelAsWritten, accepts any
  search tree for that reason.
- Collections passed to the bulk operations are sequences. For `retainAll`,
  `c.containsAll(this)` is modelled as the set test that every stored value is in
  `c`. Java's `ArrayList` copy of the tree is the in-order sequence returned by
  `ToArray`.
- AvlSet.AVLTree.RemoveRecursive and AvlSet.AVLTree.Remove: they run the
  corrected two-children branch (see "## Findings"), not the branch as written.
  The branch as written is Recursion.DelAsWritten. It returns `None` where
  `balance` would follow a missing link, which is a NullPointerException in Java.
- AvlSet.AVLTree.Height: it states the bound 2^(height/2) <= size + 1. The usual
  floating-point form of the AVL bound (about 1.44 log2 n) is not stated.
- AvlSet.AVLTree.Equals: it states what equality implies, not the converse.
  InsertionOrderShapesTree shows that two trees with the same values need not be
  equal.

## Findings

| source | as written | input that shows it | evidently intended | confidence | as-written member | corrected member |
|---|---|---|---|---|---|---|
| src/main/java/project/AVLTree.java:264-268 | removing a node with two children moves the successor into its place with factor `t.balance - 1`, whether or not the right subtree shrank; it does not call `balance` and passes the inner `endRemoving` on unchanged | insert 5, 2, 7, 1, 3, then remove 2 (any a < b < c < d < e, remove b): the root 5 is left with factor 0 over subtrees of heights 2 and 1 | treat the branch like a removal from the right subtree: adjust the factor, call `balance` and set the flag only if that subtree shrank, so the tree stays AVL | not executed | Recursion.DelAsWritten, Recursion.RemoveAsWrittenUnbalances | Recursion.Del, Recursion.RemoveCorrectedBalances |

=== FILE: avl_tree.dfy ===
/** The AVLTree class of AVLTree.java: an ordered set of integers kept in an AVL
    tree, with its in-order iterator and the bulk operations of the Set interface.

    The object state is the root subtree, the element counter `size` and the two
    flags the recursive walks use to stop adjusting balance factors. The class
    invariant `Valid` says the root is an AVL search tree holding `size` values. */
module AvlSet {
  import opened TreeModel
  import opened Rotations
  import opened Recursion

  /** The values an iterator with this stack still yields, in order: the top node
      (the last element), its right subtree, then the rest of the stack. */
  function Pending(stack: seq<Tree>): seq<int>
    decreases |stack|
  {
    if stack == [] then []
    else
      var top := stack[|stack| - 1];
      (if top.Node? then [top.v] + InOrder(top.right) else []) + Pending(stack[..|stack| - 1])
  }

  /** After each value of `snapshot` (which lists `before`) that is not in `c` was
      put into `removed`, and nothing of `c` was, what is left of `before` is its
      part in `c`. */
  lemma RetainedValues(before: set<int>, snapshot: seq<int>, removed: set<int>, c: seq<int>)
    requires SetOf(snapshot) == before
    requires forall y :: y in removed ==> y !in c
    requires forall j :: 0 <= j < |snapshot| && snapshot[j] !in c ==> snapshot[j] in removed
    ensures before - removed == before * SetOf(c)
  {
    forall y | y in before && y !in c ensures y in removed {
      assert y in snapshot;
      var j :| 0 <= j < |snapshot| && snapshot[j] == y;
    }
    forall y ensures y in before - removed <==> y in before * SetOf(c) {
      assert y in SetOf(c) <==> y in c;
    }
  }

  /** The stack-based in-order iterator. `current` and `prev` are the node last
      returned and the one before it (`Leaf` before the first call). */
  class AVLTreeIterator {
    var stack: seq<Tree>
    var current: Tree
    var prev: Tree
    /** The values still to be returned, in order. */
    ghost var rest: seq<int>

    /** Only nodes are ever pushed, and `rest` is what the stack still yields. */
    ghost predicate Valid()
      reads this
    {
      (forall i :: 0 <= i < |stack| ==> stack[i].Node?) && rest == Pending(stack)
    }

    /** A fresh iterator over `root` yields the in-order sequence of `root`. */
    constructor (root: Tree)
      ensures Valid()
      ensures rest == InOrder(root)
      ensures current == Leaf && prev == Leaf
    {
      stack := [];
      rest := [];
      current := Leaf;
      prev := Leaf;
      new;
      PushToLeft(root);
    }

    /** Pushes `node` and its chain of left descendants: the values of `node` come
        next, before those that were pending. */
    method PushToLeft(node: Tree)
      requires Valid()
      modifies this`stack, this`rest
      ensures Valid()
      ensures rest == InOrder(node) + old(rest)
      decreases node
    {
      if node.Node? {
        ghost var below := stack;
        stack := stack + [node];
        assert stack[..|stack| - 1] == below;
        rest := Pending(stack);
        PushToLeft(node.left);
      }
    }

    /** There is a next value exactly when some value is still pending. */
    function HasNext(): (r: bool)
      reads this
      ensures Valid() ==> (r <==> rest != [])
    {
      |stack| > 0
    }

    /** Pops the top node and pushes the left chain of its right subtree: yields
        the first pending value and leaves the rest pending. Calling it when
        nothing is pending throws in the source; here that is excluded. */
    method Next() returns (x: int)
      requires Valid() && HasNext()
      modifies this`stack, this`current, this`prev, this`rest
      ensures Valid()
      ensures old(rest) == [x] + rest
      ensures prev == old(current) && current.Node? && current.v == x
    {
      prev := current;
      current := stack[|stack| - 1];
      stack := stack[..|stack| - 1];
      rest := Pending(stack);
      PushToLeft(current.right);
      x := current.v;
    }
  }

  class AVLTree {
    var root: Tree
    var size: int
    var endAdding: bool
    var endRemoving: bool

    /** The class invariant: an AVL search tree whose counter is its number of nodes. */
    ghost predicate Valid()
      reads this
    {
      Bst(root) && BalOk(root) && size == Count(root)
    }

    /** An empty set. */
    constructor ()
      ensures Valid()
      ensures root == Leaf && size == 0
      ensures !endAdding && !endRemoving
    {
      root := Leaf;
      size := 0;
      endAdding := false;
      endRemoving := false;
    }

    /** The counter is the number of stored values, and of values the iterator yields. */
    function Size(): (n: int)
      reads this
      ensures Valid() ==> n == |Elems(root)| && n == |InOrder(root)|
    {
      BstCountIf(root);
      InOrderCount(root);
      size
    }

    /** Empty exactly when the root link is null, that is, when no value is stored. */
    function IsEmpty(): (r: bool)
      reads this
      ensures r <==> root == Leaf
      ensures r <==> Elems(root) == {}
      ensures Valid() ==> (r <==> size == 0)
    {
      root.Leaf?
    }

    /** find(value): no node for an empty tree, otherwise the node where the
        search path from the root ends, which on a search tree holds x or the
        closest stored value below or above it. */
    function Find(x: int): (r: Option<Tree>)
      reads this
      ensures r.None? <==> root.Leaf?
      ensures r.Some? ==> r.value.Node? && IsSubtree(r.value, root)
      ensures r.Some? ==>
        r.value.v == x || (x > r.value.v && r.value.right.Leaf?) || (x < r.value.v && r.value.left.Leaf?)
      ensures r.Some? ==> r.value.v in Elems(root)
      ensures r.Some? && Bst(root) ==> (r.value.v == x <==> x in Elems(root))
      ensures r.Some? && Bst(root) && r.value.v != x ==>
        forall y :: y in Elems(root) ==> !(r.value.v < y < x) && !(x < y < r.value.v)
    {
      if root.Leaf? then None else Some(FindFrom(root, x))
    }

    /** contains(o): the closest node exists and holds x. On a search tree this is
        membership. */
    function Contains(x: int): (r: bool)
      reads this
      ensures Bst(root) ==> (r <==> x in Elems(root))
    {
      var closest := Find(x);
      closest.Some? && closest.value.v == x
    }

    /** height(): the height of the root, which on an AVL tree is logarithmic in
        the number of values: 2^(height/2) <= size + 1. */
    function Height(): (h: nat)
      reads this
      ensures h == H(root)
      ensures Valid() ==> Pow2(h / 2) <= size + 1
    {
      AvlHeightBound(root);
      H(root)
    }

    /** addRecursive(begin, value), with the flag as a field: the same new subtree
        and the same final endAdding as Ins. */
    method AddRecursive(begin: Tree, value: int) returns (r: Tree)
      requires !endAdding && BalOk(begin) && value !in Elems(begin)
      modifies this`endAdding
      ensures (r, endAdding) == Ins(begin, value)
      decreases begin
    {
      if begin.Leaf? {
        return Node(value, Leaf, Leaf, 0);
      }
      r := begin;
      if value < begin.v {
        var l := AddRecursive(begin.left, value);
        r := r.(left := l);
        if !endAdding {
          AfterLeftGrowthRebalances(begin, l);
          r := r.(bal := r.bal - 1);
          if Abs(r.bal) == 2 {
            r := Balance(r);
          }
          if r.bal == 0 {
            endAdding := true;
          }
        }
      } else if value > begin.v {
        var rr := AddRecursive(begin.right, value);
        r := r.(right := rr);
        if !endAdding {
          AfterRightGrowthRebalances(begin, rr);
          r := r.(bal := r.bal + 1);
          if Abs(r.bal) == 2 {
            r := Balance(r);
          }
          if r.bal == 0 {
            endAdding := true;
          }
        }
      }
    }

    /** add(t): false and no change when x is present; otherwise x is added, the
        counter grows by one, the tree stays an AVL search tree and its height grows
        by one exactly when endAdding stays false. */
    method Add(x: int) returns (added: bool)
      requires Valid()
      modifies this
      ensures Valid()
      ensures added <==> x !in old(Elems(root))
      ensures Elems(root) == old(Elems(root)) + {x}
      ensures size == old(size) + (if added then 1 else 0)
      ensures !added ==> root == old(root) && endAdding == old(endAdding)
      ensures endRemoving == old(endRemoving)
      ensures old(H(root)) <= H(root) <= old(H(root)) + 1
      ensures added ==> H(root) == old(H(root)) + (if endAdding then 0 else 1)
    {
      var present := Contains(x);
      if present {
        return false;
      }
      endAdding := false;
      InsValid(root, x);
      root := AddRecursive(root, x);
      size := size + 1;
      return true;
    }

    /** removeRecursive(begin, value) with the flag as a field, and the
        two-children case corrected as in Del: the same new subtree and the same
        final endRemoving as Del. */
    method RemoveRecursive(begin: Tree, value: int) returns (r: Tree)
      requires !endRemoving && BalOk(begin) && Bst(begin) && value in Elems(begin)
      modifies this`endRemoving
      ensures (r, endRemoving) == Del(begin, value)
      decreases begin
    {
      if begin.Leaf? {
        return Leaf;
      }
      ElemsSide(begin, value);
      r := begin;
      if value < begin.v {
        var l := RemoveRecursive(begin.left, value);
        r := r.(left := l);
        if !endRemoving {
          CanBalanceAfterRemoval(begin, l);
          r := r.(bal := r.bal + 1);
          r := Balance(r);
          if r.bal != 0 {
            endRemoving := true;
          }
        }
      } else if value > begin.v {
        var rr := RemoveRecursive(begin.right, value);
        r := r.(right := rr);
        if !endRemoving {
          CanBalanceAfterRemoval(begin, rr);
          r := r.(bal := r.bal - 1);
          r := Balance(r);
          if r.bal != 0 {
            endRemoving := true;
          }
        }
      } else {
        if begin.left.Leaf? && begin.right.Leaf? {
          return Leaf;
        }
        if begin.left.Leaf? {
          return begin.right;
        }
        if begin.right.Leaf? {
          return begin.left;
        }
        var m := FindMin(begin.right).v;
        var rr := RemoveRecursive(begin.right, m);
        r := begin.(v := m, right := rr);
        if !endRemoving {
          CanBalanceAfterRemoval(begin.(v := m), rr);
          r := r.(bal := r.bal - 1);
          r := Balance(r);
          if r.bal != 0 {
            endRemoving := true;
          }
        }
      }
    }

    /** remove(o): false and no change when x is absent; otherwise exactly x is
        removed, the counter drops by one, the tree stays an AVL search tree and its
        height does not grow; it drops by one exactly when endRemoving stays false. */
    method Remove(x: int) returns (removed: bool)
      requires Valid()
      modifies this
      ensures Valid()
      ensures removed <==> x in old(Elems(root))
      ensures Elems(root) == old(Elems(root)) - {x}
      ensures size == old(size) - (if removed then 1 else 0)
      ensures !removed ==> root == old(root) && endRemoving == old(endRemoving)
      ensures endAdding == old(endAdding)
      ensures H(root) <= old(H(root))
      ensures removed ==> H(root) == old(H(root)) - (if endRemoving then 0 else 1)
    {
      var present := Contains(x);
      if !present {
        return false;
      }
      endRemoving := false;
      DelValid(root, x);
      root := RemoveRecursive(root, x);
      size := size - 1;
      return true;
    }

    /** iterator(): a fresh iterator over the current root. */
    method Iterator() returns (it: AVLTreeIterator)
      ensures fresh(it) && it.Valid()
      ensures it.rest == InOrder(root)
    {
      it := new AVLTreeIterator(root);
    }

    /** The loop shared by both toArray forms: an iterator over the root writes
        the `size` values, in order, into the first slots of `a`. */
    method FillInOrder(a: array<int>)
      requires size == Count(root) && size <= a.Length
      modifies a
      ensures a[..size] == InOrder(root)
      ensures a[size..] == old(a[size..])
    {
      InOrderCount(root);
      ghost var values := InOrder(root);
      var it := Iterator();
      for i := 0 to size
        invariant it.Valid() && it.rest == values[i..]
        invariant forall k :: 0 <= k < i ==> a[k] == values[k]
        invariant forall k :: size <= k < a.Length ==> a[k] == old(a[k])
      {
        var x := it.Next();
        assert values[i..] == [x] + values[i + 1..];
        a[i] := x;
      }
    }

    /** toArray(): the `size` values in ascending order. */
    method ToArray() returns (a: array<int>)
      requires Valid()
      ensures fresh(a)
      ensures a[..] == InOrder(root)
      ensures a.Length == size
    {
      a := new int[size];
      FillInOrder(a);
      assert a[..] == a[..size];
    }

    /** toArray(a): a fresh array when `a` is too short; otherwise the values are
        written, in order, into the first `size` slots of `a` and the rest of `a`
        is left alone. */
    method ToArrayInto(a: array<int>) returns (r: array<int>)
      requires Valid()
      modifies a
      ensures a.Length < size ==> fresh(r) && r[..] == InOrder(root) && a[..] == old(a[..])
      ensures a.Length >= size ==> r == a && a[..size] == InOrder(root) && a[size..] == old(a[size..])
    {
      if a.Length < size {
        r := ToArray();
      } else {
        FillInOrder(a);
        r := a;
      }
    }

    /** containsAll(c): every element of c is contained; on a search tree, c's
        values are a subset of the stored ones. */
    method ContainsAll(c: seq<int>) returns (r: bool)
      ensures r <==> forall i :: 0 <= i < |c| ==> Contains(c[i])
      ensures Bst(root) ==> (r <==> SetOf(c) <= Elems(root))
    {
      for i := 0 to |c|
        invariant forall j :: 0 <= j < i ==> Contains(c[j])
      {
        if !Contains(c[i]) {
          return false;
        }
      }
      return true;
    }

    /** addAll(c): false and no change when every element of c is present;
        otherwise each is added in turn. Either way the values become the old
        ones together with c's. */
    method AddAll(c: seq<int>) returns (changed: bool)
      requires Valid()
      modifies this
      ensures Valid()
      ensures changed <==> !(SetOf(c) <= old(Elems(root)))
      ensures Elems(root) == old(Elems(root)) + SetOf(c)
      ensures !changed ==> root == old(root) && size == old(size)
    {
      var all := ContainsAll(c);
      if all {
        return false;
      }
      for i := 0 to |c|
        invariant Valid()
        invariant Elems(root) == old(Elems(root)) + SetOf(c[..i])
      {
        var _ := Add(c[i]);
        assert SetOf(c[..i + 1]) == SetOf(c[..i]) + {c[i]} by {
          assert c[..i + 1] == c[..i] + [c[i]];
        }
      }
      assert c[..|c|] == c;
      return true;
    }

    /** retainAll(c): false and no change when every stored value is in c;
        otherwise each value of a snapshot taken beforehand that is not in c is
        removed. Either way the values become the old ones that are in c. */
    method RetainAll(c: seq<int>) returns (changed: bool)
      requires Valid()
      modifies this
      ensures Valid()
      ensures changed <==> !(old(Elems(root)) <= SetOf(c))
      ensures Elems(root) == old(Elems(root)) * SetOf(c)
      ensures !changed ==> root == old(root) && size == old(size)
    {
      if Elems(root) <= SetOf(c) {
        return false;
      }
      var copy := ToArray();
      var control := copy[..];
      ghost var before := Elems(root);
      InOrderElems(root);
      ghost var removed: set<int> := {};
      for i := 0 to |control|
        invariant Valid()
        invariant Elems(root) == before - removed
        invariant forall y :: y in removed ==> y !in c
        invariant forall j :: 0 <= j < i && control[j] !in c ==> control[j] in removed
      {
        if control[i] !in c {
          var _ := Remove(control[i]);
          removed := removed + {control[i]};
        }
      }
      RetainedValues(before, control, removed, c);
      return true;
    }

    /** removeAll(c): false and no change unless every element of c is present;
        otherwise each is removed in turn, so the values lose exactly c's. */
    method RemoveAll(c: seq<int>) returns (changed: bool)
      requires Valid()
      modifies this
      ensures Valid()
      ensures changed <==> SetOf(c) <= old(Elems(root))
      ensures changed ==> Elems(root) == old(Elems(root)) - SetOf(c)
      ensures !changed ==> root == old(root) && size == old(size)
    {
      var all := ContainsAll(c);
      if !all {
        return false;
      }
      for i := 0 to |c|
        invariant Valid()
        invariant Elems(root) == old(Elems(root)) - SetOf(c[..i])
      {
        var _ := Remove(c[i]);
        assert SetOf(c[..i + 1]) == SetOf(c[..i]) + {c[i]} by {
          assert c[..i + 1] == c[..i] + [c[i]];
        }
      }
      assert c[..|c|] == c;
      return true;
    }

    /** clear(): the empty set. */
    method Clear()
      modifies this`root, this`size
      ensures Valid()
      ensures root == Leaf && size == 0 && IsEmpty()
    {
      root := Leaf;
      size := 0;
    }

    /** equals(o): the same object, or a tree with the same counter and a
        structurally equal root (same values, links and balance factors). Equal
        trees hold the same values in the same order; the converse fails, see
        InsertionOrderShapesTree. */
    function Equals(other: AVLTree?): (r: bool)
      reads this, other
      ensures other == null ==> !r
      ensures other == this ==> r
      ensures r ==> other != null && size == other.size
      ensures r ==> other != null && InOrder(root) == InOrder(other.root) && Elems(root) == Elems(other.root)
    {
      other != null && (other == this || (size == other.size && root == other.root))
    }
  }
}

=== FILE: recursion.dfy ===
/** The recursive walks of AVLTree.java: find, findMin, addRecursive and
    removeRecursive.

    addRecursive and removeRecursive signal "stop adjusting the ancestors" through
    the instance flags endAdding and endRemoving. Here each walk is a function that
    returns the new subtree together with the value the flag has when the call
    returns (the flag is always false on entry: it is only set on the way back up).
    The class in avl_tree.dfy runs the same walks with the flag as a field and is
    proved equal to these functions. */
module Recursion {
  import opened TreeModel
  import opened Rotations

  /** find(begin, value): follows the comparisons from `begin` and stops at the
      node holding `x` or at the node whose child in x's direction is missing.
      On a search tree that node holds x, or else the closest stored value
      below or above x: no stored value lies strictly between the two. */
  function FindFrom(begin: Tree, x: int): (r: Tree)
    requires begin.Node?
    ensures r.Node? && IsSubtree(r, begin) && r.v in Elems(begin)
    ensures r.v == x || (x > r.v && r.right.Leaf?) || (x < r.v && r.left.Leaf?)
    ensures Bst(begin) ==> (r.v == x <==> x in Elems(begin))
    ensures Bst(begin) && r.v != x ==> forall y :: y in Elems(begin) ==> !(r.v < y < x) && !(x < y < r.v)
    decreases begin
  {
    if x == begin.v then begin
    else if x > begin.v then
      if begin.right.Leaf? then begin else FindFrom(begin.right, x)
    else
      if begin.left.Leaf? then begin else FindFrom(begin.left, x)
  }

  /** findMin(node): the leftmost node, which holds the least value. */
  function FindMin(t: Tree): (m: Tree)
    requires t.Node?
    ensures m.Node? && m.left.Leaf? && IsSubtree(m, t)
    ensures m.v in Elems(t)
    ensures Bst(t) ==> forall y :: y in Elems(t) ==> m.v <= y
    decreases t
  {
    if t.left.Leaf? then t else FindMin(t.left)
  }

  /** In a search tree a value below (above) the root can only be on the left (right). */
  lemma ElemsSide(t: Tree, x: int)
    requires t.Node? && Bst(t)
    ensures x < t.v ==> (x in Elems(t) <==> x in Elems(t.left))
    ensures x > t.v ==> (x in Elems(t) <==> x in Elems(t.right))
  {
  }

  /** On an AVL node `balance` can follow its links after either subtree was
      replaced and the factor moved one step towards the other side. */
  lemma CanBalanceAfterRemoval(t: Tree, c: Tree)
    requires t.Node?
    ensures BalOk(t) ==> CanBalance(t.(left := c, bal := t.bal + 1))
    ensures BalOk(t) ==> CanBalance(t.(right := c, bal := t.bal - 1))
  {
    if BalOk(t) && t.bal == 1 && t.right.bal < 0 {
      assert BalOk(t.right);
      assert H(t.right.left) > 0;
    }
    if BalOk(t) && t.bal == -1 && t.left.bal > 0 {
      assert BalOk(t.left);
      assert H(t.left.right) > 0;
    }
  }

  // ---------------------------------------------------------------- insertion

  /** The unwinding step of addRecursive once the counter of `n` is adjusted:
      rotate at magnitude 2, and stop the walk when the factor is back at 0. */
  function AfterGrowth(n: Tree): (res: (Tree, bool))
    requires CanBalance(n)
    ensures InOrder(res.0) == InOrder(n) && res.0.Node?
    ensures Abs(n.bal) != 2 ==> res.0 == n
  {
    var b := if Abs(n.bal) == 2 then Balance(n) else n;
    (b, b.bal == 0)
  }

  /** addRecursive(t, x) with endAdding false on entry: the new subtree and the
      final endAdding. On an AVL tree without x, the result is an AVL tree holding
      x as well, search order is kept, and endAdding is true exactly when the
      subtree did not grow. */
  function Ins(t: Tree, x: int): (res: (Tree, bool))
    requires BalOk(t) && x !in Elems(t)
    ensures res.0.Node? && BalOk(res.0)
    ensures H(res.0) == H(t) + (if res.1 then 0 else 1)
    ensures !res.1 ==> res.0.bal != 0 || H(res.0) == 1
    decreases t
  {
    if t.Leaf? then
      (Node(x, Leaf, Leaf, 0), false)
    else if x < t.v then
      var (l, stop) := Ins(t.left, x);
      if stop then
        (t.(left := l), true)
      else
        AfterLeftGrowthRebalances(t, l);
        AfterGrowth(t.(left := l, bal := t.bal - 1))
    else if x > t.v then
      var (r, stop) := Ins(t.right, x);
      if stop then
        (t.(right := r), true)
      else
        AfterRightGrowthRebalances(t, r);
        AfterGrowth(t.(right := r, bal := t.bal + 1))
    else
      (t, false)
  }

  /** The unwinding step after the left subtree of an AVL node grew by one level:
      `balance` can follow its links, the result is an AVL tree, and the walk
      stops exactly when the height is unchanged. */
  lemma AfterLeftGrowthRebalances(t: Tree, l: Tree)
    requires t.Node? && BalOk(t) && BalOk(l) && l.Node?
    requires H(l) == H(t.left) + 1 && (l.bal != 0 || H(l) == 1)
    ensures CanBalance(t.(left := l, bal := t.bal - 1))
    ensures var res := AfterGrowth(t.(left := l, bal := t.bal - 1));
      res.0.Node? && BalOk(res.0) && H(res.0) == H(t) + (if res.1 then 0 else 1) &&
      (!res.1 ==> res.0.bal != 0)
  {
    var n := t.(left := l, bal := t.bal - 1);
    BalanceRestores(n);
  }

  /** Mirror image of AfterLeftGrowthRebalances. */
  lemma AfterRightGrowthRebalances(t: Tree, r: Tree)
    requires t.Node? && BalOk(t) && BalOk(r) && r.Node?
    requires H(r) == H(t.right) + 1 && (r.bal != 0 || H(r) == 1)
    ensures CanBalance(t.(right := r, bal := t.bal + 1))
    ensures var res := AfterGrowth(t.(right := r, bal := t.bal + 1));
      res.0.Node? && BalOk(res.0) && H(res.0) == H(t) + (if res.1 then 0 else 1) &&
      (!res.1 ==> res.0.bal != 0)
  {
    var n := t.(right := r, bal := t.bal + 1);
    BalanceRestores(n);
  }

  /** Insertion adds exactly x to the values and keeps search order. */
  lemma {:induction false} InsKeepsOrder(t: Tree, x: int)
    requires BalOk(t) && x !in Elems(t)
    ensures Elems(Ins(t, x).0) == Elems(t) + {x}
    ensures Bst(t) ==> Bst(Ins(t, x).0)
  {
    if t.Node? && x < t.v {
      InsKeepsOrder(t.left, x);
      var (l, stop) := Ins(t.left, x);
      ReplaceChild(t, t.(left := l), x);
      if !stop {
        AfterLeftGrowthRebalances(t, l);
        AfterGrowthKeepsOrder(t.(left := l, bal := t.bal - 1));
        ReplaceChild(t, t.(left := l, bal := t.bal - 1), x);
      }
    } else if t.Node? && x > t.v {
      InsKeepsOrder(t.right, x);
      var (r, stop) := Ins(t.right, x);
      ReplaceChild(t, t.(right := r), x);
      if !stop {
        AfterRightGrowthRebalances(t, r);
        AfterGrowthKeepsOrder(t.(right := r, bal := t.bal + 1));
        ReplaceChild(t, t.(right := r, bal := t.bal + 1), x);
      }
    }
  }

  /** Insertion into an AVL search tree without x gives an AVL search tree with
      one more node. */
  lemma InsValid(t: Tree, x: int)
    requires Bst(t) && BalOk(t) && x !in Elems(t)
    ensures Bst(Ins(t, x).0) && BalOk(Ins(t, x).0)
    ensures Elems(Ins(t, x).0) == Elems(t) + {x}
    ensures Count(Ins(t, x).0) == Count(t) + 1
  {
    InsKeepsOrder(t, x);
    BstCount(t);
    BstCount(Ins(t, x).0);
  }

  lemma AfterGrowthKeepsOrder(n: Tree)
    requires CanBalance(n)
    ensures Elems(AfterGrowth(n).0) == Elems(n)
    ensures Bst(AfterGrowth(n).0) <==> Bst(n)
  {
    BalanceKeepsOrder(n);
  }

  /** Replacing one child of t by a subtree with x added, on x's side of the root,
      adds x to the values and keeps search order. */
  lemma ReplaceChild(t: Tree, n: Tree, x: int)
    requires t.Node? && n.Node? && n.v == t.v
    requires (n.left == t.left && x > t.v && Elems(n.right) == Elems(t.right) + {x}
              && (Bst(t.right) ==> Bst(n.right))) ||
             (n.right == t.right && x < t.v && Elems(n.left) == Elems(t.left) + {x}
              && (Bst(t.left) ==> Bst(n.left)))
    ensures Elems(n) == Elems(t) + {x}
    ensures Bst(t) ==> Bst(n)
  {
  }

  // ----------------------------------------------------------------- deletion

  /** The unwinding step of removeRecursive after the left subtree of `t` was
      replaced by `l`: unless the walk has stopped, increment the factor, call
      `balance`, and stop once the factor is nonzero. */
  function AfterLeftRemoval(t: Tree, l: Tree, stop: bool): (res: (Tree, bool))
    requires t.Node?
    requires !stop ==> CanBalance(t.(left := l, bal := t.bal + 1))
    ensures InOrder(res.0) == InOrder(t.(left := l)) && res.0.Node?
  {
    if stop then
      (t.(left := l), true)
    else
      var b := Balance(t.(left := l, bal := t.bal + 1));
      (b, b.bal != 0)
  }

  /** Mirror image of AfterLeftRemoval for the right subtree. */
  function AfterRightRemoval(t: Tree, r: Tree, stop: bool): (res: (Tree, bool))
    requires t.Node?
    requires !stop ==> CanBalance(t.(right := r, bal := t.bal - 1))
    ensures InOrder(res.0) == InOrder(t.(right := r)) && res.0.Node?
  {
    if stop then
      (t.(right := r), true)
    else
      var b := Balance(t.(right := r, bal := t.bal - 1));
      (b, b.bal != 0)
  }

  /** The adjustment after a removal keeps the values and the search order of the
      node with its new child. */
  lemma AfterLeftRemovalKeepsOrder(t: Tree, l: Tree, stop: bool)
    requires t.Node?
    requires !stop ==> CanBalance(t.(left := l, bal := t.bal + 1))
    ensures Elems(AfterLeftRemoval(t, l, stop).0) == Elems(t.(left := l))
    ensures Bst(AfterLeftRemoval(t, l, stop).0) <==> Bst(t.(left := l))
  {
    if !stop {
      BalanceKeepsOrder(t.(left := l, bal := t.bal + 1));
    }
  }

  /** Mirror image of AfterLeftRemovalKeepsOrder. */
  lemma AfterRightRemovalKeepsOrder(t: Tree, r: Tree, stop: bool)
    requires t.Node?
    requires !stop ==> CanBalance(t.(right := r, bal := t.bal - 1))
    ensures Elems(AfterRightRemoval(t, r, stop).0) == Elems(t.(right := r))
    ensures Bst(AfterRightRemoval(t, r, stop).0) <==> Bst(t.(right := r))
  {
    if !stop {
      BalanceKeepsOrder(t.(right := r, bal := t.bal - 1));
    }
  }

  /** On an AVL node the adjustment after the left side shrank by one (or, when
      the walk has stopped, not at all) yields an AVL tree, and the returned flag
      is true exactly when the height did not change. */
  lemma AfterLeftRemovalRebalances(t: Tree, l: Tree, stop: bool)
    requires t.Node? && BalOk(t) && BalOk(l)
    requires H(l) == H(t.left) - (if stop then 0 else 1)
    ensures !stop ==> CanBalance(t.(left := l, bal := t.bal + 1))
    ensures BalOk(AfterLeftRemoval(t, l, stop).0)
    ensures H(AfterLeftRemoval(t, l, stop).0) == H(t) - (if AfterLeftRemoval(t, l, stop).1 then 0 else 1)
  {
    if !stop {
      BalanceRestores(t.(left := l, bal := t.bal + 1));
    }
  }

  /** Mirror image of AfterLeftRemovalRebalances. */
  lemma AfterRightRemovalRebalances(t: Tree, r: Tree, stop: bool)
    requires t.Node? && BalOk(t) && BalOk(r)
    requires H(r) == H(t.right) - (if stop then 0 else 1)
    ensures !stop ==> CanBalance(t.(right := r, bal := t.bal - 1))
    ensures BalOk(AfterRightRemoval(t, r, stop).0)
    ensures H(AfterRightRemoval(t, r, stop).0) == H(t) - (if AfterRightRemoval(t, r, stop).1 then 0 else 1)
  {
    if !stop {
      BalanceRestores(t.(right := r, bal := t.bal - 1));
    }
  }

  /** removeRecursive(t, x) with endRemoving false on entry, with the two-children
      case handled like a removal from the right subtree (see DelAsWritten for the
      code as written): the successor takes the node's place, and the factor is
      adjusted and rebalanced only if the right subtree shrank. On an AVL search
      tree holding x, the result is an AVL search tree without x, and endRemoving
      is true exactly when the subtree kept its height. */
  function Del(t: Tree, x: int): (res: (Tree, bool))
    requires BalOk(t) && Bst(t) && x in Elems(t)
    ensures BalOk(res.0)
    ensures H(res.0) == H(t) - (if res.1 then 0 else 1)
    decreases t
  {
    if t.Leaf? then
      (Leaf, false)
    else if x < t.v then
      ElemsSide(t, x);
      var (l, stop) := Del(t.left, x);
      AfterLeftRemovalRebalances(t, l, stop);
      AfterLeftRemoval(t, l, stop)
    else if x > t.v then
      ElemsSide(t, x);
      var (r, stop) := Del(t.right, x);
      AfterRightRemovalRebalances(t, r, stop);
      AfterRightRemoval(t, r, stop)
    else if t.left.Leaf? && t.right.Leaf? then
      (Leaf, false)
    else if t.left.Leaf? then
      (t.right, false)
    else if t.right.Leaf? then
      (t.left, false)
    else
      var m := FindMin(t.right).v;
      var (r, stop) := Del(t.right, m);
      var s := t.(v := m);
      AfterRightRemovalRebalances(s, r, stop);
      AfterRightRemoval(s, r, stop)
  }

  /** removeRecursive(t, x) exactly as written, on any search tree holding x:
      in the two-children case the successor takes the node's place with factor
      t.bal - 1 whether or not the right subtree shrank, `balance` is not called
      and the flag of the inner removal is passed on unchanged. Since the code
      itself leaves trees that are not AVL (see RemoveAsWrittenUnbalances), the
      input need not be AVL; `None` stands for the NullPointerException that
      `balance` raises when it follows a missing link, which cannot happen on
      an AVL tree. */
  function DelAsWritten(t: Tree, x: int): (res: Option<(Tree, bool)>)
    requires Bst(t) && x in Elems(t)
    ensures BalOk(t) ==> res.Some?
    decreases t
  {
    if t.Leaf? then
      Some((Leaf, false))
    else if x < t.v then
      ElemsSide(t, x);
      match DelAsWritten(t.left, x)
      case None => None
      case Some((l, stop)) =>
        CanBalanceAfterRemoval(t, l);
        if stop || CanBalance(t.(left := l, bal := t.bal + 1)) then Some(AfterLeftRemoval(t, l, stop))
        else None
    else if x > t.v then
      ElemsSide(t, x);
      match DelAsWritten(t.right, x)
      case None => None
      case Some((r, stop)) =>
        CanBalanceAfterRemoval(t, r);
        if stop || CanBalance(t.(right := r, bal := t.bal - 1)) then Some(AfterRightRemoval(t, r, stop))
        else None
    else if t.left.Leaf? && t.right.Leaf? then
      Some((Leaf, false))
    else if t.left.Leaf? then
      Some((t.right, false))
    else if t.right.Leaf? then
      Some((t.left, false))
    else
      var m := FindMin(t.right).v;
      match DelAsWritten(t.right, m)
      case None => None
      case Some((r, stop)) => Some((Node(m, t.left, r, t.bal - 1), stop))
  }

  /** Removal takes exactly x out of the values and keeps search order. */
  lemma {:induction false} DelKeepsOrder(t: Tree, x: int)
    requires BalOk(t) && Bst(t) && x in Elems(t)
    ensures Elems(Del(t, x).0) == Elems(t) - {x}
    ensures Bst(Del(t, x).0)
    decreases t, 1
  {
    ElemsSide(t, x);
    if x < t.v {
      DelLeftKeepsOrder(t, x);
    } else if x > t.v {
      DelRightKeepsOrder(t, x);
    } else if t.left.Node? && t.right.Node? {
      var m := FindMin(t.right).v;
      DelKeepsOrder(t.right, m);
      var (r, stop) := Del(t.right, m);
      var s := t.(v := m);
      CanBalanceAfterRemoval(s, r);
      assert Del(t, x) == AfterRightRemoval(s, r, stop);
      AfterRightRemovalKeepsOrder(s, r, stop);
      SuccessorSplice(t, m, r, t.bal);
    } else {
      LeafOrSingleChild(t);
    }
  }

  /** Removal from an AVL search tree holding x gives an AVL search tree with one
      node less. */
  lemma DelValid(t: Tree, x: int)
    requires Bst(t) && BalOk(t) && x in Elems(t)
    ensures Bst(Del(t, x).0) && BalOk(Del(t, x).0)
    ensures Elems(Del(t, x).0) == Elems(t) - {x}
    ensures Count(Del(t, x).0) == Count(t) - 1
  {
    DelKeepsOrder(t, x);
    BstCount(t);
    BstCount(Del(t, x).0);
  }

  lemma {:induction false} DelLeftKeepsOrder(t: Tree, x: int)
    requires BalOk(t) && Bst(t) && x in Elems(t) && x < t.v
    ensures Elems(Del(t, x).0) == Elems(t) - {x}
    ensures Bst(Del(t, x).0)
    decreases t, 0
  {
    ElemsSide(t, x);
    DelKeepsOrder(t.left, x);
    var (l, stop) := Del(t.left, x);
    CanBalanceAfterRemoval(t, l);
    assert Del(t, x) == AfterLeftRemoval(t, l, stop);
    AfterLeftRemovalKeepsOrder(t, l, stop);
    ShrinkChild(t, t.(left := l), x);
  }

  lemma {:induction false} DelRightKeepsOrder(t: Tree, x: int)
    requires BalOk(t) && Bst(t) && x in Elems(t) && x > t.v
    ensures Elems(Del(t, x).0) == Elems(t) - {x}
    ensures Bst(Del(t, x).0)
    decreases t, 0
  {
    ElemsSide(t, x);
    DelKeepsOrder(t.right, x);
    var (r, stop) := Del(t.right, x);
    CanBalanceAfterRemoval(t, r);
    assert Del(t, x) == AfterRightRemoval(t, r, stop);
    AfterRightRemovalKeepsOrder(t, r, stop);
    ShrinkChild(t, t.(right := r), x);
  }

  /** Wherever the code as written completes, it still removes exactly x and
      keeps search order. */
  lemma {:induction false} DelAsWrittenKeepsOrder(t: Tree, x: int)
    requires Bst(t) && x in Elems(t)
    ensures DelAsWritten(t, x).Some? ==>
      Elems(DelAsWritten(t, x).value.0) == Elems(t) - {x} && Bst(DelAsWritten(t, x).value.0)
  {
    ElemsSide(t, x);
    if x < t.v {
      DelAsWrittenKeepsOrder(t.left, x);
      var res := DelAsWritten(t.left, x);
      if res.Some? {
        var (l, stop) := res.value;
        if stop || CanBalance(t.(left := l, bal := t.bal + 1)) {
          assert DelAsWritten(t, x) == Some(AfterLeftRemoval(t, l, stop));
          AfterLeftRemovalKeepsOrder(t, l, stop);
          ShrinkChild(t, t.(left := l), x);
        }
      }
    } else if x > t.v {
      DelAsWrittenKeepsOrder(t.right, x);
      var res := DelAsWritten(t.right, x);
      if res.Some? {
        var (r, stop) := res.value;
        if stop || CanBalance(t.(right := r, bal := t.bal - 1)) {
          assert DelAsWritten(t, x) == Some(AfterRightRemoval(t, r, stop));
          AfterRightRemovalKeepsOrder(t, r, stop);
          ShrinkChild(t, t.(right := r), x);
        }
      }
    } else if t.left.Node? && t.right.Node? {
      var m := FindMin(t.right).v;
      DelAsWrittenKeepsOrder(t.right, m);
      var res := DelAsWritten(t.right, m);
      if res.Some? {
        var (r, stop) := res.value;
        assert DelAsWritten(t, x).value.0 == t.(v := m, right := r, bal := t.bal - 1);
        SuccessorSplice(t, m, r, t.bal - 1);
      }
    } else {
      LeafOrSingleChild(t);
    }
  }

  /** Wherever the code as written completes, the result is a search tree
      without x and with one node fewer. */
  lemma DelAsWrittenValid(t: Tree, x: int)
    requires Bst(t) && x in Elems(t)
    ensures DelAsWritten(t, x).Some? ==>
      Bst(DelAsWritten(t, x).value.0) && Elems(DelAsWritten(t, x).value.0) == Elems(t) - {x} &&
      Count(DelAsWritten(t, x).value.0) == Count(t) - 1
  {
    DelAsWrittenKeepsOrder(t, x);
    if DelAsWritten(t, x).Some? {
      BstCount(t);
      BstCount(DelAsWritten(t, x).value.0);
    }
  }

  /** Replacing one child of t by that child without x (x on that side of the
      root) removes x from the values and keeps search order. */
  lemma ShrinkChild(t: Tree, n: Tree, x: int)
    requires t.Node? && n.Node? && n.v == t.v && Bst(t)
    requires (n.left == t.left && x > t.v && Elems(n.right) == Elems(t.right) - {x} && Bst(n.right)) ||
             (n.right == t.right && x < t.v && Elems(n.left) == Elems(t.left) - {x} && Bst(n.left))
    ensures Elems(n) == Elems(t) - {x}
    ensures Bst(n)
  {
  }

  /** A node with at most one child is replaced by that child (or by nothing). */
  lemma LeafOrSingleChild(t: Tree)
    requires t.Node? && Bst(t) && (t.left.Leaf? || t.right.Leaf?)
    ensures var c := if t.left.Leaf? then t.right else t.left;
      Elems(c) == Elems(t) - {t.v} && Bst(c)
  {
  }

  /** Putting the successor m in the place of the root, over the right subtree
      without m, removes the root value and keeps search order. */
  lemma SuccessorSplice(t: Tree, m: int, r: Tree, b: int)
    requires t.Node? && Bst(t) && t.right.Node? && m == FindMin(t.right).v
    requires Bst(r) && Elems(r) == Elems(t.right) - {m}
    ensures Bst(t.(v := m, right := r, bal := b))
    ensures Elems(t.(v := m, right := r, bal := b)) == Elems(t) - {t.v}
  {
    var s := t.(v := m, right := r);
    forall y | y in Elems(r) ensures m < y {
      assert y in Elems(t.right);
    }
    forall y | y in Elems(t.left) ensures y < m {
      assert m in Elems(t.right);
    }
  }

  /** A node without children. */
  lemma LeafNode(v: int)
    ensures Elems(Node(v, Leaf, Leaf, 0)) == {v} && H(Node(v, Leaf, Leaf, 0)) == 1
    ensures BalOk(Node(v, Leaf, Leaf, 0)) && Bst(Node(v, Leaf, Leaf, 0))
  {
  }

  /** The tree that inserting d, b, e, a and c (a < b < c < d < e) builds;
      with 1, 2, 3, 5, 7 it is the tree of inserting 5, 2, 7, 1, 3. */
  function Sample(a: int, b: int, c: int, d: int, e: int): Tree {
    Node(d, Node(b, Node(a, Leaf, Leaf, 0), Node(c, Leaf, Leaf, 0), 0), Node(e, Leaf, Leaf, 0), -1)
  }

  /** The sample tree is an AVL search tree holding exactly a, b, c, d and e. */
  lemma SampleValid(a: int, b: int, c: int, d: int, e: int)
    requires a < b < c < d < e
    ensures BalOk(Sample(a, b, c, d, e)) && Bst(Sample(a, b, c, d, e))
    ensures Elems(Sample(a, b, c, d, e)) == {a, b, c, d, e}
  {
    LeafNode(a);
    LeafNode(c);
    LeafNode(e);
    var l := Node(b, Node(a, Leaf, Leaf, 0), Node(c, Leaf, Leaf, 0), 0);
    assert H(l) == 2 && BalOk(l) && Bst(l) && Elems(l) == {a, b, c};
  }

  /** Inserting d, b, e, a and c into an empty tree, one step at a time: the
      third and the fifth insertion stop the walk (the subtree kept its height),
      the fourth leaves the root leaning left without a rotation. */
  lemma {:induction false} SampleFromInsertions(a: int, b: int, c: int, d: int, e: int)
    requires a < b < c < d < e
    ensures Ins(Leaf, d) == (Node(d, Leaf, Leaf, 0), false)
    ensures Ins(Node(d, Leaf, Leaf, 0), b) == (Node(d, Node(b, Leaf, Leaf, 0), Leaf, -1), false)
    ensures Ins(Node(d, Node(b, Leaf, Leaf, 0), Leaf, -1), e) ==
      (Node(d, Node(b, Leaf, Leaf, 0), Node(e, Leaf, Leaf, 0), 0), true)
    ensures Ins(Node(d, Node(b, Leaf, Leaf, 0), Node(e, Leaf, Leaf, 0), 0), a) ==
      (Node(d, Node(b, Node(a, Leaf, Leaf, 0), Leaf, -1), Node(e, Leaf, Leaf, 0), -1), false)
    ensures BalOk(Node(d, Node(b, Node(a, Leaf, Leaf, 0), Leaf, -1), Node(e, Leaf, Leaf, 0), -1))
    ensures Elems(Node(d, Node(b, Node(a, Leaf, Leaf, 0), Leaf, -1), Node(e, Leaf, Leaf, 0), -1)) == {a, b, d, e}
    ensures Ins(Node(d, Node(b, Node(a, Leaf, Leaf, 0), Leaf, -1), Node(e, Leaf, Leaf, 0), -1), c) ==
      (Sample(a, b, c, d, e), true)
  {
    LeafNode(a);
    LeafNode(b);
    LeafNode(e);
    assert Ins(Leaf, b) == (Node(b, Leaf, Leaf, 0), false);
    assert Ins(Leaf, e) == (Node(e, Leaf, Leaf, 0), false);
    assert Ins(Leaf, a) == (Node(a, Leaf, Leaf, 0), false);
    assert Ins(Node(b, Leaf, Leaf, 0), a) == (Node(b, Node(a, Leaf, Leaf, 0), Leaf, -1), false);
    assert Ins(Leaf, c) == (Node(c, Leaf, Leaf, 0), false);
    assert Ins(Node(b, Node(a, Leaf, Leaf, 0), Leaf, -1), c) ==
      (Node(b, Node(a, Leaf, Leaf, 0), Node(c, Leaf, Leaf, 0), 0), true);
  }

  /** The tree the code as written leaves after removing b from the sample tree. */
  function Unbalanced(a: int, c: int, d: int, e: int): Tree {
    Node(d, Node(c, Node(a, Leaf, Leaf, 0), Leaf, -1), Node(e, Leaf, Leaf, 0), 0)
  }

  /** Removing b (a node with two children) from the sample tree: the code as
      written returns the flag of the inner removal, so the root is told its
      left subtree shrank when it did not, and is left with factor 0 over a left
      subtree one level higher than its right one. */
  lemma {:induction false} RemoveAsWrittenUnbalances(a: int, b: int, c: int, d: int, e: int)
    requires a < b < c < d < e
    ensures BalOk(Sample(a, b, c, d, e)) && Bst(Sample(a, b, c, d, e))
    ensures b in Elems(Sample(a, b, c, d, e))
    ensures DelAsWritten(Sample(a, b, c, d, e), b) == Some((Unbalanced(a, c, d, e), false))
    ensures !BalOk(Unbalanced(a, c, d, e))
  {
    SampleValid(a, b, c, d, e);
    var t := Sample(a, b, c, d, e);
    assert FindMin(Node(c, Leaf, Leaf, 0)) == Node(c, Leaf, Leaf, 0);
    assert DelAsWritten(Node(c, Leaf, Leaf, 0), c) == Some((Leaf, false));
    var l := Node(c, Node(a, Leaf, Leaf, 0), Leaf, -1);
    assert DelAsWritten(t.left, b) == Some((l, false));
    assert CanBalance(t.(left := l, bal := t.bal + 1));
    assert DelAsWritten(t, b) == Some(AfterLeftRemoval(t, l, false));
  }

  /** The code as written goes on removing from the search tree it left: taking
      e out of it completes, and the root's stored factor -1 is now two levels
      short of its true height difference -2. */
  lemma {:induction false} RemoveAsWrittenAgain(a: int, c: int, d: int, e: int)
    requires a < c < d < e
    ensures Bst(Unbalanced(a, c, d, e)) && e in Elems(Unbalanced(a, c, d, e))
    ensures DelAsWritten(Unbalanced(a, c, d, e), e) ==
      Some((Node(d, Node(c, Node(a, Leaf, Leaf, 0), Leaf, -1), Leaf, -1), true))
    ensures H(Node(c, Node(a, Leaf, Leaf, 0), Leaf, -1)) == 2
  {
    LeafNode(a);
    LeafNode(e);
    var t := Unbalanced(a, c, d, e);
    assert Elems(t.left) == {a, c};
    assert DelAsWritten(Node(e, Leaf, Leaf, 0), e) == Some((Leaf, false));
    assert CanBalance(t.(right := Leaf, bal := t.bal - 1));
  }

  /** The corrected walk on the same input keeps the AVL invariant. */
  lemma {:induction false} RemoveCorrectedBalances(a: int, b: int, c: int, d: int, e: int)
    requires a < b < c < d < e
    ensures BalOk(Sample(a, b, c, d, e)) && Bst(Sample(a, b, c, d, e))
    ensures b in Elems(Sample(a, b, c, d, e))
    ensures Del(Sample(a, b, c, d, e), b) ==
      (Node(d, Node(c, Node(a, Leaf, Leaf, 0), Leaf, -1), Node(e, Leaf, Leaf, 0), -1), true)
    ensures BalOk(Del(Sample(a, b, c, d, e), b).0)
  {
    SampleValid(a, b, c, d, e);
    var t := Sample(a, b, c, d, e);
    assert FindMin(Node(c, Leaf, Leaf, 0)) == Node(c, Leaf, Leaf, 0);
    assert Del(Node(c, Leaf, Leaf, 0), c) == (Leaf, false);
    var l := Node(c, Node(a, Leaf, Leaf, 0), Leaf, -1);
    assert Del(t.left, b) == (l, true);
  }

  /** Two insertion orders of the same two values build different trees, so
      structural equality of trees is stricter than equality of their value sets. */
  lemma InsertionOrderShapesTree(a: int, b: int)
    requires a < b
    ensures Elems(Ins(Ins(Leaf, a).0, b).0) == Elems(Ins(Ins(Leaf, b).0, a).0) == {a, b}
    ensures Ins(Ins(Leaf, a).0, b).0 != Ins(Ins(Leaf, b).0, a).0
  {
    assert Ins(Leaf, a) == (Node(a, Leaf, Leaf, 0), false);
    assert Ins(Leaf, b) == (Node(b, Leaf, Leaf, 0), false);
    assert Ins(Node(a, Leaf, Leaf, 0), b) == (Node(a, Leaf, Node(b, Leaf, Leaf, 0), 1), false);
    assert Ins(Node(b, Leaf, Leaf, 0), a) == (Node(b, Node(a, Leaf, Leaf, 0), Leaf, -1), false);
  }
}

=== FILE: rotations.dfy ===
/** The four rotations of AVLTree.java and the `balance` dispatcher that picks one.

    Each rotation rewires two or three links of a small group of nodes and then
    assigns the balance factors of the moved nodes from a fixed case table; the
    untouched subtrees keep their stored factors. Every rotation keeps the
    in-order sequence, so it keeps search order. */
module Rotations {
  import opened TreeModel

  /** Regrouping the seven parts of the in-order sequence a double rotation moves. */
  lemma RegroupRightLeft<T>(a: seq<T>, b: seq<T>, c: seq<T>, d: seq<T>, e: seq<T>, f: seq<T>, g: seq<T>)
    ensures a + b + ((c + d + e) + f + g) == (a + b + c) + d + (e + f + g)
  {
  }

  lemma RegroupLeftRight<T>(a: seq<T>, b: seq<T>, c: seq<T>, d: seq<T>, e: seq<T>, f: seq<T>, g: seq<T>)
    ensures (a + b + (c + d + e)) + f + g == (a + b + c) + d + (e + f + g)
  {
  }

  /** Single left rotation: the right child becomes the subtree root. */
  function SmallLeftTurn(t: Tree): (r: Tree)
    requires t.Node? && t.right.Node?
    ensures InOrder(r) == InOrder(t)
    ensures r.Node? && r.left.Node?
    ensures r.v == t.right.v && r.left.v == t.v
  {
    var node := t;
    var begin := t.right;
    var b := if begin.bal == 1 then 0 else -1;
    var a := if begin.bal == 1 then 0 else 1;
    Node(begin.v, Node(node.v, node.left, begin.left, a), begin.right, b)
  }

  /** Single right rotation: the left child becomes the subtree root. */
  function SmallRightTurn(t: Tree): (r: Tree)
    requires t.Node? && t.left.Node?
    ensures InOrder(r) == InOrder(t)
    ensures r.Node? && r.right.Node?
    ensures r.v == t.left.v && r.right.v == t.v
  {
    var node := t;
    var begin := t.left;
    var b := if begin.bal == -1 then 0 else 1;
    var a := if begin.bal == -1 then 0 else -1;
    Node(begin.v, begin.left, Node(node.v, begin.right, node.right, a), b)
  }

  /** Double rotation right-left: the left grandchild of the right child
      becomes the subtree root. */
  function BigLeftTurn(t: Tree): (r: Tree)
    requires t.Node? && t.right.Node? && t.right.left.Node?
    ensures InOrder(r) == InOrder(t)
    ensures r.Node? && r.left.Node? && r.right.Node?
    ensures r.v == t.right.left.v && r.left.v == t.v && r.right.v == t.right.v
  {
    var left := t;
    var right := t.right;
    var begin := t.right.left;
    var lb := if begin.bal == 0 || begin.bal == -1 then 0 else -1;
    var rb := if begin.bal == -1 then 1 else 0;
    assert InOrder(right) == InOrder(begin) + [right.v] + InOrder(right.right);
    assert InOrder(begin) == InOrder(begin.left) + [begin.v] + InOrder(begin.right);
    RegroupRightLeft(InOrder(left.left), [left.v], InOrder(begin.left), [begin.v],
      InOrder(begin.right), [right.v], InOrder(right.right));
    Node(begin.v, Node(left.v, left.left, begin.left, lb),
         Node(right.v, begin.right, right.right, rb), 0)
  }

  /** Double rotation left-right: the right grandchild of the left child
      becomes the subtree root. */
  function BigRightTurn(t: Tree): (r: Tree)
    requires t.Node? && t.left.Node? && t.left.right.Node?
    ensures InOrder(r) == InOrder(t)
    ensures r.Node? && r.left.Node? && r.right.Node?
    ensures r.v == t.left.right.v && r.left.v == t.left.v && r.right.v == t.v
  {
    var right := t;
    var left := t.left;
    var begin := t.left.right;
    var lb := if begin.bal == 1 then -1 else 0;
    var rb := if begin.bal == 0 || begin.bal == 1 then 0 else 1;
    assert InOrder(left) == InOrder(left.left) + [left.v] + InOrder(begin);
    assert InOrder(begin) == InOrder(begin.left) + [begin.v] + InOrder(begin.right);
    RegroupLeftRight(InOrder(left.left), [left.v], InOrder(begin.left), [begin.v],
      InOrder(begin.right), [right.v], InOrder(right.right));
    Node(begin.v, Node(left.v, left.left, begin.left, lb),
         Node(right.v, begin.right, right.right, rb), 0)
  }

  /** The links `balance` follows without a null check. A node whose factor is
      its true height difference over two AVL subtrees always has them. */
  predicate CanBalance(t: Tree): (r: bool)
    ensures t.Node? && BalOk(t.left) && BalOk(t.right) && t.bal == H(t.right) - H(t.left) ==> r
  {
    t.Node? &&
    (t.bal == -2 ==> t.left.Node? && (t.left.bal > 0 ==> t.left.right.Node?)) &&
    (t.bal == 2 ==> t.right.Node? && (t.right.bal < 0 ==> t.right.left.Node?))
  }

  /** The dispatcher: rotates a node whose stored factor is -2 or 2, and returns
      any other node unchanged. */
  function Balance(t: Tree): (r: Tree)
    requires CanBalance(t)
    ensures InOrder(r) == InOrder(t)
    ensures r.Node?
    ensures t.bal != -2 && t.bal != 2 ==> r == t
  {
    if t.bal == -2 then
      if t.left.bal <= 0 then SmallRightTurn(t) else BigRightTurn(t)
    else if t.bal == 2 then
      if t.right.bal >= 0 then SmallLeftTurn(t) else BigLeftTurn(t)
    else
      t
  }

  /** A rotation keeps the set of values and search order. */
  lemma BalanceKeepsOrder(t: Tree)
    requires CanBalance(t)
    ensures Elems(Balance(t)) == Elems(t)
    ensures Bst(Balance(t)) <==> Bst(t)
  {
    InOrderElems(t);
    InOrderElems(Balance(t));
    BstIffAscending(t);
    BstIffAscending(Balance(t));
  }

  /** The case table of the single left rotation is right: applied to a node whose
      right subtree is two levels higher than its left one and whose right child
      leans right or not at all, it yields an AVL tree. When the child leaned right
      (factor 1) both moved nodes get factor 0 and the height drops by one; when it
      was level the new root gets -1, the old root 1, and the height is kept. */
  lemma SmallLeftTurnRebalances(t: Tree)
    requires t.Node? && t.right.Node?
    requires BalOk(t.left) && BalOk(t.right) && H(t.right) == H(t.left) + 2
    requires t.right.bal >= 0
    ensures BalOk(SmallLeftTurn(t))
    ensures t.right.bal == 1 ==> SmallLeftTurn(t).bal == 0 && SmallLeftTurn(t).left.bal == 0
    ensures t.right.bal == 1 ==> H(SmallLeftTurn(t)) == H(t) - 1
    ensures t.right.bal == 0 ==> SmallLeftTurn(t).bal == -1 && SmallLeftTurn(t).left.bal == 1
    ensures t.right.bal == 0 ==> H(SmallLeftTurn(t)) == H(t)
  {
    var x, y, z := t.left, t.right.left, t.right.right;
    assert H(t) == 1 + H(t.right);
    assert t.right.bal == H(z) - H(y);
  }

  /** Mirror image of SmallLeftTurnRebalances. */
  lemma SmallRightTurnRebalances(t: Tree)
    requires t.Node? && t.left.Node?
    requires BalOk(t.left) && BalOk(t.right) && H(t.left) == H(t.right) + 2
    requires t.left.bal <= 0
    ensures BalOk(SmallRightTurn(t))
    ensures t.left.bal == -1 ==> SmallRightTurn(t).bal == 0 && SmallRightTurn(t).right.bal == 0
    ensures t.left.bal == -1 ==> H(SmallRightTurn(t)) == H(t) - 1
    ensures t.left.bal == 0 ==> SmallRightTurn(t).bal == 1 && SmallRightTurn(t).right.bal == -1
    ensures t.left.bal == 0 ==> H(SmallRightTurn(t)) == H(t)
  {
    var x, y, z := t.left.left, t.left.right, t.right;
    assert H(t) == 1 + H(t.left);
    assert t.left.bal == H(y) - H(x);
  }

  /** The case table of the double rotation right-left is right: applied to a node
      whose right subtree is two levels higher and whose right child leans left,
      it yields an AVL tree one level lower whose root has factor 0; the pivot's
      old factor 0, -1 or 1 decides whether the moved nodes get 0/0, 0/1 or -1/0. */
  lemma BigLeftTurnRebalances(t: Tree)
    requires t.Node? && t.right.Node?
    requires BalOk(t.left) && BalOk(t.right) && H(t.right) == H(t.left) + 2
    requires t.right.bal < 0
    ensures t.right.left.Node?
    ensures BalOk(BigLeftTurn(t))
    ensures BigLeftTurn(t).bal == 0 && H(BigLeftTurn(t)) == H(t) - 1
    ensures t.right.left.bal == 0 ==> BigLeftTurn(t).left.bal == 0 && BigLeftTurn(t).right.bal == 0
    ensures t.right.left.bal == -1 ==> BigLeftTurn(t).left.bal == 0 && BigLeftTurn(t).right.bal == 1
    ensures t.right.left.bal == 1 ==> BigLeftTurn(t).left.bal == -1 && BigLeftTurn(t).right.bal == 0
  {
    var p := t.right.left;
    assert H(t.right.left) == H(t.right.right) + 1;
    assert H(t) == 1 + H(t.right);
    assert p.bal == H(p.right) - H(p.left);
  }

  /** Mirror image of BigLeftTurnRebalances. */
  lemma BigRightTurnRebalances(t: Tree)
    requires t.Node? && t.left.Node?
    requires BalOk(t.left) && BalOk(t.right) && H(t.left) == H(t.right) + 2
    requires t.left.bal > 0
    ensures t.left.right.Node?
    ensures BalOk(BigRightTurn(t))
    ensures BigRightTurn(t).bal == 0 && H(BigRightTurn(t)) == H(t) - 1
    ensures t.left.right.bal == 0 ==> BigRightTurn(t).left.bal == 0 && BigRightTurn(t).right.bal == 0
    ensures t.left.right.bal == 1 ==> BigRightTurn(t).left.bal == -1 && BigRightTurn(t).right.bal == 0
    ensures t.left.right.bal == -1 ==> BigRightTurn(t).left.bal == 0 && BigRightTurn(t).right.bal == 1
  {
    var p := t.left.right;
    assert H(t.left.right) == H(t.left.left) + 1;
    assert H(t) == 1 + H(t.left);
    assert p.bal == H(p.right) - H(p.left);
  }

  /** A node whose stored factor is its true height difference, between -2 and 2,
      over two AVL subtrees: `balance` can follow its links, yields an AVL tree,
      and leaves an in-range node as it is. After a rotation the root factor tells
      the height change: 0 means one level lower, nonzero means the same height.
      If the heavy child was not level, the rotation always ends at factor 0. */
  lemma BalanceRestores(t: Tree)
    requires t.Node? && BalOk(t.left) && BalOk(t.right)
    requires t.bal == H(t.right) - H(t.left) && -2 <= t.bal <= 2
    ensures CanBalance(t)
    ensures BalOk(Balance(t))
    ensures Abs(t.bal) == 2 ==> H(Balance(t)) == H(t) - (if Balance(t).bal == 0 then 1 else 0)
    ensures t.bal == -2 && t.left.bal != 0 ==> Balance(t).bal == 0
    ensures t.bal == 2 && t.right.bal != 0 ==> Balance(t).bal == 0
  {
    if t.bal == -2 {
      if t.left.bal <= 0 {
        SmallRightTurnRebalances(t);
      } else {
        BigRightTurnRebalances(t);
      }
    } else if t.bal == 2 {
      if t.right.bal >= 0 {
        SmallLeftTurnRebalances(t);
      } else {
        BigLeftTurnRebalances(t);
      }
    }
  }
}

=== FILE: tree_model.dfy ===
/** The nodes of the AVL tree, as immutable values.

    A node is owned by exactly one parent (or by the root slot of the tree), so a
    node object is modelled by the value of the whole subtree it heads; `Leaf`
    stands for a null link. `bal` is the stored balance factor, which the
    algorithm keeps equal to height(right) - height(left) without recomputing it. */
module TreeModel {

  datatype Tree = Leaf | Node(v: int, left: Tree, right: Tree, bal: int)

  datatype Option<T> = None | Some(value: T)

  function Max(a: int, b: int): int {
    if a < b then b else a
  }

  function Abs(a: int): int {
    if a < 0 then -a else a
  }

  /** Height of a subtree: an empty link has height 0. */
  function H(t: Tree): nat {
    match t
    case Leaf => 0
    case Node(_, l, r, _) => 1 + Max(H(l), H(r))
  }

  /** The set of values stored in a subtree. */
  function Elems(t: Tree): set<int> {
    match t
    case Leaf => {}
    case Node(v, l, r, _) => Elems(l) + {v} + Elems(r)
  }

  /** The values of a subtree in in-order (left, node, right). */
  function InOrder(t: Tree): seq<int> {
    match t
    case Leaf => []
    case Node(v, l, r, _) => InOrder(l) + [v] + InOrder(r)
  }

  /** The number of nodes of a subtree. */
  function Count(t: Tree): nat {
    match t
    case Leaf => 0
    case Node(_, l, r, _) => Count(l) + 1 + Count(r)
  }

  /** Binary-search-tree order: left values below the node, right values above. */
  predicate Bst(t: Tree) {
    match t
    case Leaf => true
    case Node(v, l, r, _) =>
      (forall x :: x in Elems(l) ==> x < v) &&
      (forall x :: x in Elems(r) ==> v < x) &&
      Bst(l) && Bst(r)
  }

  /** The AVL invariant: every stored balance factor is the true height
      difference, and it lies in -1..1. */
  predicate BalOk(t: Tree) {
    match t
    case Leaf => true
    case Node(_, l, r, b) =>
      b == H(r) - H(l) && -1 <= b <= 1 && BalOk(l) && BalOk(r)
  }

  /** `s` is the subtree headed by some node of `t` (or `t` itself). */
  predicate IsSubtree(s: Tree, t: Tree) {
    s == t || (t.Node? && (IsSubtree(s, t.left) || IsSubtree(s, t.right)))
  }

  predicate StrictlyAscending(s: seq<int>) {
    forall i, j :: 0 <= i < j < |s| ==> s[i] < s[j]
  }

  function SetOf(s: seq<int>): set<int> {
    set x | x in s
  }

  /** The in-order sequence lists every node once. */
  lemma {:induction false} InOrderCount(t: Tree)
    ensures |InOrder(t)| == Count(t)
  {
    match t
    case Leaf =>
    case Node(_, l, r, _) =>
      InOrderCount(l);
      InOrderCount(r);
  }

  /** The in-order sequence holds exactly the values of the subtree. */
  lemma {:induction false} InOrderElems(t: Tree)
    ensures SetOf(InOrder(t)) == Elems(t)
  {
    match t
    case Leaf =>
    case Node(v, l, r, _) =>
      InOrderElems(l);
      InOrderElems(r);
      assert forall x :: x in InOrder(t) <==> x in InOrder(l) || x == v || x in InOrder(r);
  }

  /** Splitting a strictly ascending sequence around one pivot element. */
  lemma AscendingAround(a: seq<int>, v: int, b: seq<int>)
    ensures StrictlyAscending(a + [v] + b) <==>
      StrictlyAscending(a) && StrictlyAscending(b) &&
      (forall x :: x in a ==> x < v) && (forall x :: x in b ==> v < x)
  {
    if StrictlyAscending(a + [v] + b) {
      AscendingSplits(a, v, b);
    }
    if StrictlyAscending(a) && StrictlyAscending(b) &&
       (forall x :: x in a ==> x < v) && (forall x :: x in b ==> v < x) {
      AscendingJoins(a, v, b);
    }
  }

  lemma AscendingSplits(a: seq<int>, v: int, b: seq<int>)
    requires StrictlyAscending(a + [v] + b)
    ensures StrictlyAscending(a) && StrictlyAscending(b)
    ensures forall x :: x in a ==> x < v
    ensures forall x :: x in b ==> v < x
  {
    var s := a + [v] + b;
    assert forall i :: 0 <= i < |a| ==> s[i] == a[i];
    assert forall i :: 0 <= i < |b| ==> s[|a| + 1 + i] == b[i];
    assert s[|a|] == v;
    forall i, j | 0 <= i < j < |b| ensures b[i] < b[j] {
      assert s[|a| + 1 + i] < s[|a| + 1 + j];
    }
    forall x | x in a ensures x < v {
      var i :| 0 <= i < |a| && a[i] == x;
      assert s[i] < s[|a|];
    }
    forall x | x in b ensures v < x {
      var i :| 0 <= i < |b| && b[i] == x;
      assert s[|a|] < s[|a| + 1 + i];
    }
  }

  lemma AscendingJoins(a: seq<int>, v: int, b: seq<int>)
    requires StrictlyAscending(a) && StrictlyAscending(b)
    requires forall x :: x in a ==> x < v
    requires forall x :: x in b ==> v < x
    ensures StrictlyAscending(a + [v] + b)
  {
    var s := a + [v] + b;
    forall i, j | 0 <= i < j < |s| ensures s[i] < s[j] {
      if j < |a| {
        assert s[i] == a[i] && s[j] == a[j];
      } else if i < |a| {
        assert s[i] == a[i] && a[i] in a;
        if j > |a| {
          assert s[j] == b[j - |a| - 1] && b[j - |a| - 1] in b;
        }
      } else if i == |a| {
        assert s[j] == b[j - |a| - 1] && b[j - |a| - 1] in b;
      } else {
        assert s[i] == b[i - |a| - 1] && s[j] == b[j - |a| - 1];
      }
    }
  }

  /** A tree is search-ordered exactly when its in-order sequence ascends strictly. */
  lemma {:induction false} BstIffAscending(t: Tree)
    ensures Bst(t) <==> StrictlyAscending(InOrder(t))
  {
    match t
    case Leaf =>
    case Node(v, l, r, _) =>
      BstIffAscending(l);
      BstIffAscending(r);
      InOrderElems(l);
      InOrderElems(r);
      AscendingAround(InOrder(l), v, InOrder(r));
      assert forall x :: x in InOrder(l) <==> x in Elems(l);
      assert forall x :: x in InOrder(r) <==> x in Elems(r);
  }

  /** In a search-ordered tree no value is stored twice, so the number of
      distinct values is the number of nodes. */
  lemma {:induction false} BstCount(t: Tree)
    requires Bst(t)
    ensures |Elems(t)| == Count(t)
  {
    match t
    case Leaf =>
    case Node(v, l, r, _) =>
      BstCount(l);
      BstCount(r);
      DisjointSides(t);
      assert |Elems(l) + Elems(r)| == |Elems(l)| + |Elems(r)|;
      assert Elems(t) == (Elems(l) + Elems(r)) + {v};
  }

  /** The two subtrees and the root of a search tree share no value. */
  lemma DisjointSides(t: Tree)
    requires t.Node? && Bst(t)
    ensures Elems(t.left) !! Elems(t.right)
    ensures t.v !in Elems(t.left) + Elems(t.right)
  {
    forall x | x in Elems(t.left) ensures x !in Elems(t.right) {
    }
  }

  /** BstCount for any tree, stated under its condition. */
  lemma BstCountIf(t: Tree)
    ensures Bst(t) ==> |Elems(t)| == Count(t)
  {
    if Bst(t) {
      BstCount(t);
    }
  }

  /** The fewest nodes an AVL-balanced tree of height `h` can have. */
  function MinCount(h: nat): nat {
    if h == 0 then 0 else if h == 1 then 1 else 1 + MinCount(h - 1) + MinCount(h - 2)
  }

  function Pow2(n: nat): nat {
    if n == 0 then 1 else 2 * Pow2(n - 1)
  }

  lemma {:induction false} MinCountMonotone(a: nat, b: nat)
    requires a <= b
    ensures MinCount(a) <= MinCount(b)
    decreases b
  {
    if a < b {
      MinCountMonotone(a, b - 1);
    }
  }

  /** The minimal node count grows at least like 2^(h/2). */
  lemma {:induction false} MinCountExponential(h: nat)
    ensures Pow2(h / 2) <= MinCount(h) + 1
  {
    if h >= 2 {
      MinCountExponential(h - 2);
      MinCountMonotone(h - 2, h - 1);
      assert (h - 2) / 2 == h / 2 - 1;
    }
  }

  /** An AVL-balanced tree of height h holds at least MinCount(h) nodes. */
  lemma {:induction false} AvlMinCount(t: Tree)
    requires BalOk(t)
    ensures MinCount(H(t)) <= Count(t)
  {
    match t
    case Leaf =>
    case Node(_, l, r, _) =>
      AvlMinCount(l);
      AvlMinCount(r);
      if H(l) == H(r) && H(l) > 0 {
        MinCountMonotone(H(l) - 1, H(r));
      }
  }

  /** The height bound an AVL tree guarantees: 2^(height/2) <= nodes + 1, that is,
      the height stays below 2*log2(nodes + 1) + 2. */
  lemma AvlHeightBound(t: Tree)
    ensures BalOk(t) ==> Pow2(H(t) / 2) <= Count(t) + 1
  {
    if BalOk(t) {
      AvlMinCount(t);
      MinCountExponential(H(t));
    }
  }
}
